=== FILE: README.md ===
# Pebbles game: a Dafny model

This project models the state machine of the pebbles game contract.
Two players, the User and the Program, take turns removing between 1 and
`max_pebbles_per_turn` pebbles from a pile of `pebbles_count`, and whoever
empties the pile wins. The contract exposes four entry points:

- `init` validates the configuration, stores a fresh game and lets a random draw decide who opens.
- `handle` serves `Turn`, `GiveUp` and `Restart`.
- `program_turn` computes the Program's reply. On Easy it takes a random amount; on Hard it takes `pebbles_remaining % (max_pebbles_per_turn + 1)`.
- `state` reads the stored game.

The model keeps the program's behaviour as written, including the parts a reader may not expect:

- `init` stores the game before the Program's opening move, which is replied but never stored.
- A winning User turn returns before the write-back, so the stored game does not record the User's win.
- `Restart` skips the configuration check that `init` makes.
- The Hard move can be 0, which is replied as `CounterTurn(0)`.
- `winner` is never checked, so a finished game keeps accepting turns.
- With Hard and `max_pebbles_per_turn == u32::MAX`, computing `max_pebbles_per_turn + 1` panics.

Files:

- `pebbles_io.dfy` (module `PebblesIo`): the message and state types, with the field names of the game's I/O crate. It also defines `u32` as a bounded integer and `Result`, where a panic becomes `Err(Panic)`.
- `pebbles_game.dfy` (module `PebblesGame`): `Init`, `Handle` (split into `HandleTurn`, `HandleGiveUp` and `HandleRestart`), `ProgramMove`, `ProgramTurn` and `ReadState`, written as pure functions. The global `GAME_STATE` becomes an explicit `Option<GameState>`. The two random values are arguments:
  - `draw` is the raw `u32` whose parity picks the first player.
  - `pick` is the Easy opponent's draw from `1..=max_pebbles_per_turn`.
- `game_session.dfy` (module `GameSession`): delivers messages under the host's rule that a panicking message commits nothing. It proves invariants that hold over any sequence of messages.
- `hard_strategy.dfy` (module `HardStrategy`): what the Hard opponent guarantees against any sequence of User turns, up to the first announced winner.
- `scenarios.dfy` (module `Scenarios`): concrete games, and the surprising behaviours listed above as lemmas.
- `mod_arith.dfy` (module `ModArith`): facts about Euclidean division that the Hard proofs use.

## Model

| member | source | states |
|---|---|---|
| PebblesGame.SaturatingSub | pebbles-game/src/lib.rs:53 | `saturating_sub` never underflows. The result is 0 exactly when the subtrahend covers the whole pile; otherwise it plus the subtrahend gives back the pile. |
| PebblesGame.ProgramMove | pebbles-game/src/lib.rs:87-96 | The Program's move panics exactly for Easy with an empty range (`max_pebbles_per_turn == 0`) or Hard with `max_pebbles_per_turn + 1` overflowing. Easy takes the pick, which lies in `1..=max`. Hard takes at most `max` and at most the pile, and leaves a multiple of `max + 1`. It takes 0 exactly when the pile already is such a multiple. |
| PebblesGame.ProgramTurn | pebbles-game/src/lib.rs:86-106 | Configuration and first player are unchanged. The new pile is the old pile minus the Program's move, saturating at 0, so it shrinks by at most `max`; on Easy the move is the pick. The pile reaches 0 iff the reply is `Won(Program)`, and then `winner` becomes the Program. Otherwise `winner` is unchanged and the reply is `CounterTurn` of the exact amount removed. Easy always removes pebbles from a non-empty pile. Hard always leaves a multiple of `max + 1`, and it leaves the pile unchanged iff the pile already was one. |
| PebblesGame.Init | pebbles-game/src/lib.rs:13-39 | Fails with a configuration error, storing nothing, iff `pebbles_count == 0`, `max_pebbles_per_turn == 0` or `max_pebbles_per_turn > pebbles_count`. Otherwise it fails only when the Program opens a Hard game whose `max + 1` overflows. On success the stored game has the full pile and no winner, even when the Program opens. The first player, chosen by `FirstPlayer`, is the User iff the draw is even. The Program's opening move appears only as the single reply. |
| PebblesGame.HandleTurn | pebbles-game/src/lib.rs:48-61 | `Turn(0)` and `Turn(p)` with `p > max_pebbles_per_turn` fail. A turn that empties the pile (saturating) replies `Won(User)` and leaves the stored game exactly as it was. Any other valid turn is followed by the Program's move on the reduced pile. That case never replies `Won(User)`, keeps the configuration, and leaves between `old - p - max` and `old - p` pebbles. It sets `winner` only when the Program empties the pile. Nothing depends on `winner`. |
| PebblesGame.HandleGiveUp | pebbles-game/src/lib.rs:62-65 | Always replies `Won(Program)` and sets `winner` to the Program, whatever the pile. Every other field is unchanged. |
| PebblesGame.HandleRestart | pebbles-game/src/lib.rs:66-78 | Builds the new game from the given fields alone, without any configuration check; `FirstPlayer` picks the User iff the draw is even. It fails only when the Program opens and its move panics: `EmptyRange` on Easy, `AddOverflow` on Hard. With the User first: full pile, no winner, no reply. With the Program first: the stored game and the one reply are exactly those of the Program's turn on the fresh game, so the opening move (the pick on Easy) is stored. The pile is empty iff the reply is `Won(Program)`, and then the Program is the winner. Otherwise the reply is `CounterTurn` of the amount taken and there is no winner. A Hard opening leaves a multiple of `max + 1`, and it leaves the full pile iff the pile already was one. |
| PebblesGame.Handle | pebbles-game/src/lib.rs:41-84 | Fails when no game is stored, whatever the action. Otherwise it dispatches `Turn`, `GiveUp` and `Restart` to their handlers. |
| PebblesGame.ReadState | pebbles-game/src/lib.rs:108-112 | Returns the stored game, and fails exactly when none is stored. |
| GameSession.Deliver | pebbles-game/src/lib.rs:81-83 | A message that panics leaves the stored game exactly as it was and sends nothing. This includes every out-of-range `Turn` and every message before initialisation. A message that succeeds stores the handled game and sends its replies. A message never removes a stored game and sends at most one reply. |
| GameSession.Run | pebbles-game/src/lib.rs:41-84 | Before initialisation every message of a sequence fails, so nothing is stored and nothing is replied. A sequence of messages never removes a stored game and sends at most one reply per message. The first message's replies come first. |
| GameSession.DeliverKeepsInvariant | pebbles-game/src/lib.rs:53-83 | After any single message, the stored pile is still within `pebbles_count` and the stored winner is still not the User. |
| GameSession.RunKeepsInvariant | pebbles-game/src/lib.rs:41-84 | Over any sequence of messages, the stored pile never exceeds `pebbles_count` and a User win is never stored. |
| GameSession.ReachableGamesKeepInvariant | pebbles-game/src/lib.rs:14-84 | Every game stored after a successful `init` and any messages satisfies that invariant. |
| GameSession.RunWithoutRestartKeepsGame | pebbles-game/src/lib.rs:48-65 | With no `Restart` in a sequence of messages, the configuration and first player stay fixed and the pile never grows. |
| GameSession.RunWithoutRestartKeepsProgramWin | pebbles-game/src/lib.rs:48-106 | With no `Restart` in a sequence of messages, a recorded Program win stays recorded: `winner` is only ever set to the Program, and only `Restart` clears it. |
| HardStrategy.PlayTurns | pebbles-game/src/lib.rs:48-61 | A User session of `Turn` messages that stops at the first rejected turn or the first announced winner. It yields at most one reply per turn, and every reply before the last is a `CounterTurn`. |
| HardStrategy.HardMoveIsUnique | pebbles-game/src/lib.rs:92-95 | The Hard move is the only amount in `0..=max` (and within the pile) that leaves a multiple of `max + 1`. |
| HardStrategy.HardRoundKeepsUserOut | pebbles-game/src/lib.rs:48-106 | On Hard, when the pile is larger than `max`, no valid User turn wins. The Program then either wins or again leaves more than `max` pebbles. |
| HardStrategy.HardUserCannotWin | pebbles-game/src/lib.rs:48-106 | On Hard, a User facing more than `max` pebbles never receives `Won(User)` before the Program announces its win, whatever sequence of valid turns they send. The guarantee ends at that announcement: a later turn on the emptied pile is answered with `Won(User)`. |
| HardStrategy.HardRoundFromMultiple | pebbles-game/src/lib.rs:48-106 | On Hard, from a nonzero multiple of `max + 1`, a User turn of `p` is answered with `max + 1 - p`. The round removes exactly `max + 1` pebbles, and the Program wins iff the pile is then empty. |
| HardStrategy.HardProgramWinsInRounds | pebbles-game/src/lib.rs:86-106 | On Hard, from a nonzero multiple `k * (max + 1)`, the game lasts exactly `k` rounds. The Program's win is the k-th reply, and no `Won` comes earlier. |
| HardStrategy.HardRestartIsWonByProgram | pebbles-game/src/lib.rs:66-106 | A Hard `Restart` with `max_pebbles_per_turn < u32::MAX` in which the Program opens on a pile that is not a multiple of `max + 1` always succeeds. Either the opening takes the whole pile and replies `Won(Program)`, or no sequence of valid User turns receives `Won(User)` before the Program announces its win. |
| Scenarios.InitOpeningWinIsForgotten | pebbles-game/src/lib.rs:32-38 | Suppose the Program opens a Hard `init` on a pile it can take whole. It replies `Won(Program)`, but the stored game has no winner, and the User's first turn takes the pile and wins. |
| Scenarios.TurnAfterProgramWinIsAccepted | pebbles-game/src/lib.rs:48-58 | After the Program has emptied the pile and is recorded as winner, any valid turn is answered with `Won(User)`. |
| Scenarios.RestartStoresRejectedConfig | pebbles-game/src/lib.rs:66-74 | `Restart` stores a 0-pebble, 0-per-turn game, which `init` would reject. Every turn in that game fails. |
| Scenarios.HardRestartTwentyByThree | pebble-game/tests/basic.rs:92-103 | A Hard restart with 20 pebbles and at most 3 per turn keeps all 20. If the Program opens, it replies `CounterTurn(0)`. |
| Scenarios.HardMoveFromFourteen | pebbles-game/src/lib.rs:92-104 | In a Hard 15/2 game with 14 pebbles left, the Program takes 2 and leaves 12. |
| Scenarios.EasyFifteenByTwo | pebble-game/tests/basic.rs:106-145 | In an Easy 15/2 game, `Turn(3)` fails and `GiveUp` yields `Won(Program)` with the Program recorded as winner. |

## Left out

- Message transport (`msg::load`, `msg::reply`, `msg::id`) is left out. Replies are returned as a sequence of events, and a payload that fails to decode is not modelled. A reply that fails to send is not modelled either. The host's automatic reply to a message that sends none, and its error reply to a panicking message, are outside the model.
- The random sources are arguments rather than modelled calls. This covers `exec::random`, the hashing of the message id and `u32::from_le_bytes` (pebbles-game/src/lib.rs:7-11), and `rand::thread_rng().gen_range` (pebbles-game/src/lib.rs:89-90). `draw` is the raw `u32` and `pick` is the drawn value, required to lie in `1..=max_pebbles_per_turn` when that range is non-empty. A failing random call is not modelled.
- `static mut GAME_STATE` and the `unsafe` blocks become an explicit `Option<GameState>` threaded through the functions.
- The `pebbles_game_io` crate is not part of this model. Its types are plain Dafny datatypes with the same field names.
- Overflow of `max_pebbles_per_turn + 1` panics in a debug build. In a release build the sum wraps to 0 and the following `%` panics on division by zero. Both cases are one `AddOverflow` error.
- HardStrategy.HardRestartIsWonByProgram: covers only `max_pebbles_per_turn < u32::MAX`, because at `u32::MAX` the Program's opening computes `max + 1`, the `Restart` fails with `AddOverflow` and no new game is stored (stated by PebblesGame.HandleRestart).
- HardStrategy.PlayTurns ends at the first rejected turn and at the first announced winner, unlike GameSession.Run, which rolls a rejected message back and carries on; the Hard-strategy lemmas stated over it say nothing about turns sent after a `Won` reply.
- GameSession.Run stops at the first message whose Easy pick lies outside the range the random source draws from, because no execution of the program can see such a pick.
- Behaviours kept as the code has them, though a reader might expect otherwise:
  - `Restart` is not validated.
  - The opening move of `init` is not stored.
  - The Hard opponent may move 0 pebbles; no fallback to 1 is applied.
  - A `Turn` after the game has a winner is accepted, not rejected.
  - A winning User turn is not stored, so `winner` never records the User.

=== FILE: game_session.dfy ===
/**
 Sequences of messages delivered to the game, with the host's semantics:
 a message that panics commits nothing, so the stored game is exactly what
 it was before, and it sends no reply.
 */
module GameSession {
  import opened PebblesIo
  import opened PebblesGame

  /** One message to `handle`, with the random values the program draws while handling it. */
  datatype Message = Message(action: PebblesAction, draw: u32, pick: u32)

  /** The stored game after some messages, and the replies they sent, in order. */
  datatype Outcome = Outcome(stored: Option<GameState>, replies: seq<PebblesEvent>)

  /** Deliver one message: commit the handled game, or roll back on a panic. */
  function Deliver(stored: Option<GameState>, m: Message): (o: Outcome)
    requires PickFitsFor(stored, m.action, m.pick)
    ensures Handle(stored, m.action, m.draw, m.pick).Err? ==> o == Outcome(stored, [])
    ensures o.stored.Some? <==> stored.Some?
    ensures |o.replies| <= 1
    ensures Handle(stored, m.action, m.draw, m.pick).Ok? ==>
              o == Outcome(Some(Handle(stored, m.action, m.draw, m.pick).value.state),
                           Handle(stored, m.action, m.draw, m.pick).value.replies)
    ensures stored.None? ==> o == Outcome(None, [])
    ensures stored.Some? && m.action.Turn? &&
            (m.action.pebbles == 0 || m.action.pebbles > stored.value.max_pebbles_per_turn) ==>
              o == Outcome(stored, [])
  {
    match Handle(stored, m.action, m.draw, m.pick)
    case Err(_) => Outcome(stored, [])
    case Ok(h) => Outcome(Some(h.state), h.replies)
  }

  /**
   Deliver the messages in order. A run stops early at a message whose Easy
   pick lies outside the range the random source draws from, since no
   execution of the program sees such a pick.
   */
  function Run(stored: Option<GameState>, msgs: seq<Message>): (o: Outcome)
    ensures o.stored.Some? <==> stored.Some?
    ensures |o.replies| <= |msgs|
    ensures stored.None? ==> o == Outcome(None, [])
    ensures |msgs| > 0 && PickFitsFor(stored, msgs[0].action, msgs[0].pick) ==>
              Deliver(stored, msgs[0]).replies <= o.replies
    decreases |msgs|
  {
    if |msgs| == 0 || !PickFitsFor(stored, msgs[0].action, msgs[0].pick) then
      Outcome(stored, [])
    else
      var first := Deliver(stored, msgs[0]);
      var rest := Run(first.stored, msgs[1..]);
      Outcome(rest.stored, first.replies + rest.replies)
  }

  /**
   What every game the program ever stores satisfies: the pile is never
   larger than it started, and a User win is never recorded (the winning
   turn returns before the write-back).
   */
  predicate StoredInvariant(stored: Option<GameState>) {
    stored.Some? ==>
      && stored.value.pebbles_remaining <= stored.value.pebbles_count
      && stored.value.winner != Some(User)
  }

  /** No message of the sequence is a `Restart`. */
  predicate NoRestart(msgs: seq<Message>) {
    forall i :: 0 <= i < |msgs| ==> !msgs[i].action.Restart?
  }

  /** Every message keeps the invariant. */
  lemma DeliverKeepsInvariant(stored: Option<GameState>, m: Message)
    requires PickFitsFor(stored, m.action, m.pick)
    requires StoredInvariant(stored)
    ensures StoredInvariant(Deliver(stored, m).stored)
  {
  }

  /** Every run keeps the invariant. */
  lemma {:induction false} RunKeepsInvariant(stored: Option<GameState>, msgs: seq<Message>)
    requires StoredInvariant(stored)
    ensures StoredInvariant(Run(stored, msgs).stored)
    decreases |msgs|
  {
    if |msgs| > 0 && PickFitsFor(stored, msgs[0].action, msgs[0].pick) {
      DeliverKeepsInvariant(stored, msgs[0]);
      RunKeepsInvariant(Deliver(stored, msgs[0]).stored, msgs[1..]);
    }
  }

  /** Every game stored after a successful `init` and any messages satisfies the invariant. */
  lemma ReachableGamesKeepInvariant(cfg: PebblesInit, draw: u32, pick: u32, msgs: seq<Message>)
    requires cfg.difficulty == Easy ==> PickFits(cfg.max_pebbles_per_turn, pick)
    ensures Init(cfg, draw, pick).Ok? ==>
              && ValidConfig(cfg.pebbles_count, cfg.max_pebbles_per_turn)
              && StoredInvariant(Run(Some(Init(cfg, draw, pick).value.state), msgs).stored)
  {
    if Init(cfg, draw, pick).Ok? {
      RunKeepsInvariant(Some(Init(cfg, draw, pick).value.state), msgs);
    }
  }

  /**
   Between restarts the game keeps its configuration and first player, and
   its pile never grows.
   */
  lemma {:induction false} RunWithoutRestartKeepsGame(stored: Option<GameState>, msgs: seq<Message>)
    requires stored.Some?
    requires NoRestart(msgs)
    ensures Run(stored, msgs).stored.Some?
    ensures SameGame(stored.value, Run(stored, msgs).stored.value)
    ensures Run(stored, msgs).stored.value.pebbles_remaining <= stored.value.pebbles_remaining
    decreases |msgs|
  {
    if |msgs| > 0 && PickFitsFor(stored, msgs[0].action, msgs[0].pick) {
      assert !msgs[0].action.Restart?;
      var next := Deliver(stored, msgs[0]).stored;
      assert NoRestart(msgs[1..]) by {
        forall i | 0 <= i < |msgs[1..]| ensures !msgs[1..][i].action.Restart? {
          assert msgs[1..][i] == msgs[i + 1];
        }
      }
      RunWithoutRestartKeepsGame(next, msgs[1..]);
    }
  }

  /**
   Between restarts a recorded Program win stays recorded: a winning User
   turn is never written back, and every write of `winner` stores the
   Program.
   */
  lemma {:induction false} RunWithoutRestartKeepsProgramWin(stored: Option<GameState>, msgs: seq<Message>)
    requires stored.Some? && stored.value.winner == Some(Program)
    requires NoRestart(msgs)
    ensures Run(stored, msgs).stored.Some?
    ensures Run(stored, msgs).stored.value.winner == Some(Program)
    decreases |msgs|
  {
    if |msgs| > 0 && PickFitsFor(stored, msgs[0].action, msgs[0].pick) {
      assert !msgs[0].action.Restart?;
      var next := Deliver(stored, msgs[0]).stored;
      assert NoRestart(msgs[1..]) by {
        forall i | 0 <= i < |msgs[1..]| ensures !msgs[1..][i].action.Restart? {
          assert msgs[1..][i] == msgs[i + 1];
        }
      }
      RunWithoutRestartKeepsProgramWin(next, msgs[1..]);
    }
  }
}

=== FILE: hard_strategy.dfy ===
/**
 What the Hard opponent achieves. Its move leaves a multiple of
 `max_pebbles_per_turn + 1` on the pile, the classical winning strategy of
 the subtraction game. Because a move of 0 is allowed (the Program passes
 when the pile already is such a multiple), a User facing more pebbles than
 one turn can take never wins before the Program announces its own win.
 The program has no terminal check, so turns sent after that announcement
 are still handled, and one on the emptied pile is answered with
 `Won(User)`; the sessions here end at the first announced winner.
 */
module HardStrategy {
  import opened PebblesIo
  import opened PebblesGame
  import ModArith

  /**
   The replies a User receives who sends the turns `ps` one after another,
   stopping at the first announced winner or the first rejected turn; the
   Program draws `picks[i]` when it answers `ps[i]` in an Easy game.
   */
  function PlayTurns(s: GameState, ps: seq<u32>, picks: seq<u32>): (events: seq<PebblesEvent>)
    requires |picks| == |ps|
    requires s.difficulty == Easy ==> forall i :: 0 <= i < |picks| ==> PickFits(s.max_pebbles_per_turn, picks[i])
    ensures |events| <= |ps|
    ensures forall i :: 0 <= i < |events| - 1 ==> events[i].CounterTurn?
    decreases |ps|
  {
    if |ps| == 0 then []
    else
      match HandleTurn(s, ps[0], picks[0])
      case Err(_) => []
      case Ok(h) =>
        if h.replies[0].Won? then h.replies
        else
          assert SameGame(s, h.state);
          assert forall i :: 0 <= i < |picks[1..]| ==> picks[1..][i] == picks[i + 1];
          h.replies + PlayTurns(h.state, ps[1..], picks[1..])
  }

  /** Every turn of the sequence is one `Turn` accepts in a game with this limit. */
  predicate ValidTurns(ps: seq<u32>, max: u32) {
    forall i :: 0 <= i < |ps| ==> 1 <= ps[i] <= max
  }

  /** A Hard game whose opponent can move (no overflow) and whose pile is more than one turn can take. */
  predicate OutOfUserReach(s: GameState) {
    && s.difficulty == Hard
    && s.max_pebbles_per_turn < U32_MAX
    && s.pebbles_remaining > s.max_pebbles_per_turn
  }

  /** A Hard game in which the User must move from a nonzero multiple of `max_pebbles_per_turn + 1`. */
  predicate LosingForUser(s: GameState) {
    && s.difficulty == Hard
    && 1 <= s.max_pebbles_per_turn < U32_MAX
    && s.pebbles_remaining > 0
    && s.pebbles_remaining % (s.max_pebbles_per_turn + 1) == 0
  }

  /**
   The Hard move is the only amount in `0..=max_pebbles_per_turn` that
   leaves a multiple of `max_pebbles_per_turn + 1`.
   */
  lemma HardMoveIsUnique(s: GameState, pick: u32, k: nat)
    requires s.difficulty == Hard && s.max_pebbles_per_turn < U32_MAX
    requires k <= s.max_pebbles_per_turn && k <= s.pebbles_remaining
    requires (s.pebbles_remaining - k) % (s.max_pebbles_per_turn + 1) == 0
    ensures ProgramMove(s, pick) == Ok(k)
  {
    var m := s.max_pebbles_per_turn + 1;
    var q := (s.pebbles_remaining - k) / m;
    assert s.pebbles_remaining - k == m * q;
    ModArith.DivModUnique(s.pebbles_remaining, m, q, k);
  }

  /**
   One round from a position out of the User's reach: the User cannot
   empty the pile, and the Program either wins or leaves a position out of
   the User's reach again.
   */
  lemma HardRoundKeepsUserOut(s: GameState, p: u32, pick: u32)
    requires OutOfUserReach(s)
    requires 1 <= p <= s.max_pebbles_per_turn
    ensures HandleTurn(s, p, pick).Ok?
    ensures HandleTurn(s, p, pick).value.replies[0] != Won(User)
    ensures SameGame(s, HandleTurn(s, p, pick).value.state)
    ensures HandleTurn(s, p, pick).value.replies[0] == Won(Program)
            || OutOfUserReach(HandleTurn(s, p, pick).value.state)
  {
    var t := HandleTurn(s, p, pick).value.state;
    if t.pebbles_remaining != 0 {
      var afterUser := s.(pebbles_remaining := s.pebbles_remaining - p);
      assert t == ProgramTurn(afterUser, pick).value.state;
      ModArith.PositiveMultipleAtLeastModulus(t.pebbles_remaining, s.max_pebbles_per_turn + 1);
    }
  }

  /**
   Against the Hard opponent, a User who cannot take the whole pile in the
   first turn never receives `Won(User)` before the Program announces its
   win, whatever valid turns they send.
   */
  lemma {:induction false} HardUserCannotWin(s: GameState, ps: seq<u32>, picks: seq<u32>)
    requires OutOfUserReach(s)
    requires ValidTurns(ps, s.max_pebbles_per_turn)
    requires |picks| == |ps|
    ensures Won(User) !in PlayTurns(s, ps, picks)
    decreases |ps|
  {
    if |ps| > 0 {
      HardRoundKeepsUserOut(s, ps[0], picks[0]);
      var h := HandleTurn(s, ps[0], picks[0]).value;
      if !h.replies[0].Won? {
        assert ValidTurns(ps[1..], h.state.max_pebbles_per_turn) by {
          forall i | 0 <= i < |ps[1..]| ensures 1 <= ps[1..][i] <= h.state.max_pebbles_per_turn {
            assert ps[1..][i] == ps[i + 1];
          }
        }
        HardUserCannotWin(h.state, ps[1..], picks[1..]);
        assert PlayTurns(s, ps, picks) == h.replies + PlayTurns(h.state, ps[1..], picks[1..]);
      }
    }
  }

  /** The number of full rounds (User turn and Program answer) the pile holds. */
  function Rounds(s: GameState): int {
    s.pebbles_remaining / (s.max_pebbles_per_turn + 1)
  }

  /**
   One round from a nonzero multiple of `max_pebbles_per_turn + 1`: the
   User's `p` pebbles and the Program's answer of `max_pebbles_per_turn + 1 - p`
   remove exactly one multiple, and the Program wins if that empties the pile.
   */
  lemma HardRoundFromMultiple(s: GameState, p: u32, pick: u32)
    requires LosingForUser(s)
    requires 1 <= p <= s.max_pebbles_per_turn
    ensures HandleTurn(s, p, pick).Ok?
    ensures var h := HandleTurn(s, p, pick).value;
            && SameGame(s, h.state)
            && h.state.pebbles_remaining == s.pebbles_remaining - (s.max_pebbles_per_turn + 1)
            && Rounds(h.state) == Rounds(s) - 1
            && h.replies == [if h.state.pebbles_remaining == 0 then Won(Program)
                             else CounterTurn(s.max_pebbles_per_turn + 1 - p)]
            && (h.state.pebbles_remaining != 0 ==> LosingForUser(h.state))
  {
    var m := s.max_pebbles_per_turn + 1;
    ModArith.RoundFromMultiple(s.pebbles_remaining, m, p);
    var afterUser := s.(pebbles_remaining := s.pebbles_remaining - p);
    HardMoveIsUnique(afterUser, pick, m - p);
  }

  /**
   From a nonzero multiple of `max_pebbles_per_turn + 1`, every round removes
   exactly one multiple, so the Program announces its win in the round that
   empties the pile, and not before.
   */
  lemma {:induction false} HardProgramWinsInRounds(s: GameState, ps: seq<u32>, picks: seq<u32>)
    requires LosingForUser(s)
    requires ValidTurns(ps, s.max_pebbles_per_turn)
    requires |picks| == |ps|
    ensures Rounds(s) >= 1
    ensures |PlayTurns(s, ps, picks)| == (if |ps| < Rounds(s) then |ps| else Rounds(s))
    ensures Rounds(s) <= |ps| ==> PlayTurns(s, ps, picks)[Rounds(s) - 1] == Won(Program)
    decreases |ps|
  {
    var m := s.max_pebbles_per_turn + 1;
    ModArith.PositiveMultipleAtLeastModulus(s.pebbles_remaining, m);
    if |ps| > 0 {
      HardRoundFromMultiple(s, ps[0], picks[0]);
      var h := HandleTurn(s, ps[0], picks[0]).value;
      if h.state.pebbles_remaining != 0 {
        assert ValidTurns(ps[1..], h.state.max_pebbles_per_turn) by {
          forall i | 0 <= i < |ps[1..]| ensures 1 <= ps[1..][i] <= h.state.max_pebbles_per_turn {
            assert ps[1..][i] == ps[i + 1];
          }
        }
        HardProgramWinsInRounds(h.state, ps[1..], picks[1..]);
        assert PlayTurns(s, ps, picks) == h.replies + PlayTurns(h.state, ps[1..], picks[1..]);
      } else {
        assert PlayTurns(s, ps, picks) == [Won(Program)];
      }
    }
  }

  /**
   A Hard restart with `max_pebbles_per_turn < u32::MAX` in which the
   Program opens on a pile that is not a multiple of
   `max_pebbles_per_turn + 1` is lost for the User: the stored
   opening move either wins outright or leaves a nonzero multiple, from
   which no sequence of User turns receives `Won(User)` before the Program
   announces its win.
   */
  lemma HardRestartIsWonByProgram(pebbles_count: u32, max_pebbles_per_turn: u32, draw: u32, pick: u32,
                                  ps: seq<u32>, picks: seq<u32>)
    requires 1 <= max_pebbles_per_turn < U32_MAX
    requires pebbles_count % (max_pebbles_per_turn + 1) != 0
    requires draw % 2 == 1
    requires ValidTurns(ps, max_pebbles_per_turn)
    requires |picks| == |ps|
    ensures HandleRestart(Hard, pebbles_count, max_pebbles_per_turn, draw, pick).Ok?
    ensures var h := HandleRestart(Hard, pebbles_count, max_pebbles_per_turn, draw, pick).value;
            h.replies == [Won(Program)] || Won(User) !in PlayTurns(h.state, ps, picks)
  {
    var h := HandleRestart(Hard, pebbles_count, max_pebbles_per_turn, draw, pick).value;
    if h.state.pebbles_remaining != 0 {
      ModArith.PositiveMultipleAtLeastModulus(h.state.pebbles_remaining, max_pebbles_per_turn + 1);
      HardUserCannotWin(h.state, ps, picks);
    }
  }
}

=== FILE: mod_arith.dfy ===
/**
 Facts about Euclidean division by a positive modulus, used to reason about
 the Hard opponent's `pebbles_remaining % (max_pebbles_per_turn + 1)`.
 */
module ModArith {

  /** A positive multiple of `m` is at least `m`. */
  lemma AtLeastOneMultiple(m: int, d: int)
    requires m > 0 && d >= 1
    ensures m * d >= m
  {
  }

  /** Quotient and remainder are the only ones with `x == m * q + r` and `0 <= r < m`. */
  lemma DivModUnique(x: int, m: int, q: int, r: int)
    requires m > 0 && 0 <= r < m && x == m * q + r
    ensures x % m == r && x / m == q
  {
    var q', r' := x / m, x % m;
    assert m * q + r == m * q' + r';
    if q > q' {
      AtLeastOneMultiple(m, q - q');
      assert false;
    } else if q < q' {
      AtLeastOneMultiple(m, q' - q);
      assert false;
    }
  }

  /** Taking the remainder away from a natural number leaves a multiple of the modulus. */
  lemma RemainderFacts(a: nat, m: int)
    requires m > 0
    ensures a % m <= a
    ensures (a - a % m) % m == 0
  {
    var q := a / m;
    assert a == m * q + a % m;
    if q < 0 {
      AtLeastOneMultiple(m, -q);
    }
    DivModUnique(a - a % m, m, q, 0);
  }

  /** A nonzero multiple of a positive modulus is at least the modulus. */
  lemma PositiveMultipleAtLeastModulus(x: nat, m: int)
    requires m > 0 && x > 0 && x % m == 0
    ensures x >= m
    ensures x / m >= 1
  {
  }

  /**
   From a nonzero multiple of `m`, taking `p` in `1..m-1` leaves remainder
   `m - p`; taking `m` in all leaves the next lower multiple.
   */
  lemma RoundFromMultiple(x: nat, m: int, p: int)
    requires m >= 2 && x > 0 && x % m == 0 && 1 <= p < m
    ensures m <= x
    ensures (x - p) % m == m - p
    ensures (x - m) % m == 0
    ensures (x - m) / m == x / m - 1
  {
    PositiveMultipleAtLeastModulus(x, m);
    var q := x / m;
    assert x == m * q;
    assert m * q == m * (q - 1) + m;
    DivModUnique(x - p, m, q - 1, m - p);
    DivModUnique(x - m, m, q - 1, 0);
  }
}

=== FILE: pebbles_game.dfy ===
/**
 The pebbles game program: `init`, `handle` (with its three actions),
 `program_turn` and `state`, as pure functions over the stored game.

 The program's one global, `GAME_STATE`, becomes an explicit
 `Option<GameState>` argument; a panic becomes `Err`; the two random draws
 become arguments: `draw` is the raw `u32` whose parity picks the first
 player, and `pick` is the number the Easy opponent draws from
 `1..=max_pebbles_per_turn`.
 */
module PebblesGame {
  import opened PebblesIo
  import ModArith

  /** The configuration `init` accepts: a non-empty pile and a per-turn limit in `1..=pebbles_count`. */
  predicate ValidConfig(pebbles_count: u32, max_pebbles_per_turn: u32) {
    pebbles_count != 0 && max_pebbles_per_turn != 0 && max_pebbles_per_turn <= pebbles_count
  }

  /** An even draw lets the User start, an odd one the Program. */
  function FirstPlayer(draw: u32): Player {
    if draw % 2 == 0 then User else Program
  }

  /** Rust's `u32::saturating_sub`. */
  function SaturatingSub(a: u32, b: u32): (r: u32)
    ensures r <= a
    ensures r == 0 <==> a <= b
    ensures r != 0 ==> r + b == a
  {
    if a > b then a - b else 0
  }

  /** A value the random source can return for `gen_range(1..=max)`; there is none when `max == 0`. */
  predicate PickFits(max: u32, pick: u32) {
    max == 0 || 1 <= pick <= max
  }

  /** The Easy pick is one the random source could have drawn for this game. */
  predicate PickFitsGame(s: GameState, pick: u32) {
    s.difficulty == Easy ==> PickFits(s.max_pebbles_per_turn, pick)
  }

  /** The Easy pick fits whichever game the Program would move in while handling `action`. */
  predicate PickFitsFor(stored: Option<GameState>, action: PebblesAction, pick: u32) {
    match action
    case Restart(difficulty, _, max) => difficulty == Easy ==> PickFits(max, pick)
    case _ => stored.Some? ==> PickFitsGame(stored.value, pick)
  }

  /** The games in which computing the Program's move panics. */
  predicate MovePanics(s: GameState) {
    || (s.difficulty == Easy && s.max_pebbles_per_turn == 0)
    || (s.difficulty == Hard && s.max_pebbles_per_turn == U32_MAX)
  }

  /** Both games have the same configuration and first player. */
  predicate SameGame(s: GameState, t: GameState) {
    && t.pebbles_count == s.pebbles_count
    && t.max_pebbles_per_turn == s.max_pebbles_per_turn
    && t.difficulty == s.difficulty
    && t.first_player == s.first_player
  }

  /** A fresh game as `init` and `Restart` build it, before any move. */
  function NewGame(difficulty: DifficultyLevel, pebbles_count: u32, max_pebbles_per_turn: u32, draw: u32): GameState {
    GameState(pebbles_count, max_pebbles_per_turn, pebbles_count, difficulty, FirstPlayer(draw), None)
  }

  /**
   The number of pebbles the Program takes. Easy takes the random pick;
   Hard takes the amount that leaves a multiple of `max_pebbles_per_turn + 1`,
   which is 0 when the pile already is one.
   */
  function ProgramMove(s: GameState, pick: u32): (r: Result<u32>)
    requires PickFitsGame(s, pick)
    ensures r.Err? <==> MovePanics(s)
    ensures r.Err? ==> r.panic == (if s.difficulty == Easy then EmptyRange else AddOverflow)
    ensures r.Ok? ==> r.value <= s.max_pebbles_per_turn
    ensures r.Ok? && s.difficulty == Easy ==> 1 <= r.value && r.value == pick
    ensures r.Ok? && s.difficulty == Hard ==>
              && r.value <= s.pebbles_remaining
              && (s.pebbles_remaining - r.value) % (s.max_pebbles_per_turn + 1) == 0
    ensures r.Ok? && s.difficulty == Hard ==>
              (r.value == 0 <==> s.pebbles_remaining % (s.max_pebbles_per_turn + 1) == 0)
  {
    match s.difficulty
    case Easy =>
      if s.max_pebbles_per_turn == 0 then Err(EmptyRange) else Ok(pick)
    case Hard =>
      if s.max_pebbles_per_turn == U32_MAX then Err(AddOverflow)
      else
        var m := s.max_pebbles_per_turn + 1;
        ModArith.RemainderFacts(s.pebbles_remaining, m);
        Ok(s.pebbles_remaining % m)
  }

  /** The game after one Program move, with the reply the move sends. */
  datatype Moved = Moved(state: GameState, event: PebblesEvent)

  /**
   The Program's turn: take the move from the pile (saturating at 0) and
   either declare the Program the winner or report the amount taken.
   */
  function ProgramTurn(s: GameState, pick: u32): (r: Result<Moved>)
    requires PickFitsGame(s, pick)
    ensures r.Err? <==> MovePanics(s)
    ensures r.Err? ==> r.panic == ProgramMove(s, pick).panic
    ensures r.Ok? ==>
              && SameGame(s, r.value.state)
              && r.value.state.pebbles_remaining <= s.pebbles_remaining
              && s.pebbles_remaining - r.value.state.pebbles_remaining <= s.max_pebbles_per_turn
    ensures r.Ok? ==>
              (r.value.state.pebbles_remaining == 0 <==> r.value.event == Won(Program))
    ensures r.Ok? && r.value.state.pebbles_remaining == 0 ==> r.value.state.winner == Some(Program)
    ensures r.Ok? && r.value.state.pebbles_remaining != 0 ==>
              && r.value.state.winner == s.winner
              && r.value.event == CounterTurn(s.pebbles_remaining - r.value.state.pebbles_remaining)
    ensures r.Ok? ==>
              r.value.state.pebbles_remaining == SaturatingSub(s.pebbles_remaining, ProgramMove(s, pick).value)
    ensures r.Ok? && s.difficulty == Easy ==>
              && (s.pebbles_remaining != 0 ==> r.value.state.pebbles_remaining < s.pebbles_remaining)
              && (r.value.event.CounterTurn? ==> 1 <= r.value.event.pebbles <= s.max_pebbles_per_turn)
    ensures r.Ok? && s.difficulty == Hard ==>
              && r.value.state.pebbles_remaining % (s.max_pebbles_per_turn + 1) == 0
              && (r.value.state.pebbles_remaining == s.pebbles_remaining <==>
                  s.pebbles_remaining % (s.max_pebbles_per_turn + 1) == 0)
  {
    match ProgramMove(s, pick)
    case Err(e) => Err(e)
    case Ok(pebbles) =>
      var remaining := SaturatingSub(s.pebbles_remaining, pebbles);
      if remaining == 0 then
        Ok(Moved(s.(pebbles_remaining := 0, winner := Some(Program)), Won(Program)))
      else
        Ok(Moved(s.(pebbles_remaining := remaining), CounterTurn(pebbles)))
  }

  /** What a successful message leaves behind: the game to store and the replies sent. */
  datatype Handled = Handled(state: GameState, replies: seq<PebblesEvent>)

  /**
   `init`: validate the configuration, store a fresh game, and let the
   Program open when the draw is odd. The opening move is replied but
   applied only to a copy: the stored game keeps its full pile.
   */
  function Init(cfg: PebblesInit, draw: u32, pick: u32): (r: Result<Handled>)
    requires cfg.difficulty == Easy ==> PickFits(cfg.max_pebbles_per_turn, pick)
    ensures !ValidConfig(cfg.pebbles_count, cfg.max_pebbles_per_turn) ==> r == Err(InvalidConfiguration)
    ensures ValidConfig(cfg.pebbles_count, cfg.max_pebbles_per_turn) ==>
              (r.Err? <==> draw % 2 == 1 && cfg.difficulty == Hard && cfg.max_pebbles_per_turn == U32_MAX)
    ensures r.Err? && ValidConfig(cfg.pebbles_count, cfg.max_pebbles_per_turn) ==> r.panic == AddOverflow
    ensures r.Ok? ==>
              && r.value.state.pebbles_count == cfg.pebbles_count
              && r.value.state.max_pebbles_per_turn == cfg.max_pebbles_per_turn
              && r.value.state.difficulty == cfg.difficulty
              && r.value.state.pebbles_remaining == cfg.pebbles_count
              && r.value.state.winner == None
              && (r.value.state.first_player == User <==> draw % 2 == 0)
    ensures r.Ok? && draw % 2 == 0 ==> r.value.replies == []
    ensures r.Ok? && draw % 2 == 1 ==>
              && ProgramTurn(r.value.state, pick).Ok?
              && r.value.replies == [ProgramTurn(r.value.state, pick).value.event]
  {
    if !ValidConfig(cfg.pebbles_count, cfg.max_pebbles_per_turn) then
      Err(InvalidConfiguration)
    else
      var game := NewGame(cfg.difficulty, cfg.pebbles_count, cfg.max_pebbles_per_turn, draw);
      if game.first_player == Program then
        match ProgramTurn(game, pick)
        case Err(e) => Err(e)
        case Ok(opening) => Ok(Handled(game, [opening.event]))
      else
        Ok(Handled(game, []))
  }

  /**
   A `Turn`: reject an amount outside `1..=max_pebbles_per_turn`, take it
   from the pile (saturating at 0), and either reply `Won(User)` without
   storing anything, or let the Program answer and store the result.
   Nothing looks at `winner`, so a finished game keeps accepting turns.
   */
  function HandleTurn(s: GameState, pebbles: u32, pick: u32): (r: Result<Handled>)
    requires PickFitsGame(s, pick)
    ensures pebbles == 0 || pebbles > s.max_pebbles_per_turn ==> r == Err(InvalidPebbles)
    ensures 1 <= pebbles <= s.max_pebbles_per_turn ==>
              (r.Err? <==> pebbles < s.pebbles_remaining && MovePanics(s))
    ensures r.Err? && 1 <= pebbles <= s.max_pebbles_per_turn ==> r.panic == AddOverflow
    ensures r.Ok? ==> |r.value.replies| == 1
    ensures r.Ok? && s.pebbles_remaining <= pebbles ==> r.value == Handled(s, [Won(User)])
    ensures r.Ok? && pebbles < s.pebbles_remaining ==>
              && SameGame(s, r.value.state)
              && r.value.replies[0] != Won(User)
              && r.value.state.pebbles_remaining <= s.pebbles_remaining - pebbles
              && s.pebbles_remaining - pebbles - s.max_pebbles_per_turn <= r.value.state.pebbles_remaining
              && (r.value.state.pebbles_remaining == 0 <==> r.value.replies[0] == Won(Program))
              && (r.value.state.pebbles_remaining == 0 ==> r.value.state.winner == Some(Program))
              && (r.value.state.pebbles_remaining != 0 ==> r.value.state.winner == s.winner)
    ensures r.Ok? && pebbles < s.pebbles_remaining ==>
              var afterUser := s.(pebbles_remaining := s.pebbles_remaining - pebbles);
              && ProgramTurn(afterUser, pick).Ok?
              && r.value == Handled(ProgramTurn(afterUser, pick).value.state, [ProgramTurn(afterUser, pick).value.event])
  {
    if pebbles == 0 || pebbles > s.max_pebbles_per_turn then
      Err(InvalidPebbles)
    else
      var remaining := SaturatingSub(s.pebbles_remaining, pebbles);
      if remaining == 0 then
        // the early return skips the write-back: the stored game is left as it was
        Ok(Handled(s, [Won(User)]))
      else
        match ProgramTurn(s.(pebbles_remaining := remaining), pick)
        case Err(e) => Err(e)
        case Ok(reply) => Ok(Handled(reply.state, [reply.event]))
  }

  /** `GiveUp`: the Program wins, whatever the pile; nothing else changes. */
  function HandleGiveUp(s: GameState): (r: Handled)
    ensures SameGame(s, r.state)
    ensures r.state.pebbles_remaining == s.pebbles_remaining
    ensures r.state.winner == Some(Program)
    ensures r.replies == [Won(Program)]
  {
    Handled(s.(winner := Some(Program)), [Won(Program)])
  }

  /**
   `Restart`: replace the game by a fresh one built from the given fields,
   without the configuration check `init` makes, and let the Program open
   when the draw is odd. Unlike in `init`, the opening move is stored.
   The old game is not an argument: it cannot influence the new one.
   */
  function HandleRestart(difficulty: DifficultyLevel, pebbles_count: u32, max_pebbles_per_turn: u32,
                         draw: u32, pick: u32): (r: Result<Handled>)
    requires difficulty == Easy ==> PickFits(max_pebbles_per_turn, pick)
    ensures r.Err? <==>
              && draw % 2 == 1
              && ((difficulty == Easy && max_pebbles_per_turn == 0)
                  || (difficulty == Hard && max_pebbles_per_turn == U32_MAX))
    ensures r.Err? ==> r.panic == (if difficulty == Easy then EmptyRange else AddOverflow)
    ensures r.Ok? ==>
              && r.value.state.pebbles_count == pebbles_count
              && r.value.state.max_pebbles_per_turn == max_pebbles_per_turn
              && r.value.state.difficulty == difficulty
              && (r.value.state.first_player == User <==> draw % 2 == 0)
              && r.value.state.pebbles_remaining <= pebbles_count
              && pebbles_count - r.value.state.pebbles_remaining <= max_pebbles_per_turn
    ensures r.Ok? && draw % 2 == 0 ==>
              && r.value.state.pebbles_remaining == pebbles_count
              && r.value.state.winner == None
              && r.value.replies == []
    ensures r.Ok? && draw % 2 == 1 ==>
              && |r.value.replies| == 1
              && (r.value.state.pebbles_remaining == 0 <==> r.value.replies[0] == Won(Program))
              && (r.value.state.winner == None <==> r.value.state.pebbles_remaining != 0)
    ensures r.Ok? && draw % 2 == 1 ==>
              && (r.value.state.pebbles_remaining == 0 ==> r.value.state.winner == Some(Program))
              && (r.value.state.pebbles_remaining != 0 ==>
                    r.value.replies[0] == CounterTurn(pebbles_count - r.value.state.pebbles_remaining))
              && r.value.state.pebbles_remaining
                   == SaturatingSub(pebbles_count, ProgramMove(NewGame(difficulty, pebbles_count, max_pebbles_per_turn, draw), pick).value)
    ensures r.Ok? && draw % 2 == 1 ==>
              var g := NewGame(difficulty, pebbles_count, max_pebbles_per_turn, draw);
              && ProgramTurn(g, pick).Ok?
              && r.value == Handled(ProgramTurn(g, pick).value.state, [ProgramTurn(g, pick).value.event])
    ensures r.Ok? && draw % 2 == 1 && difficulty == Hard ==>
              && r.value.state.pebbles_remaining % (max_pebbles_per_turn + 1) == 0
              && (r.value.state.pebbles_remaining == pebbles_count <==>
                  pebbles_count % (max_pebbles_per_turn + 1) == 0)
  {
    var game := NewGame(difficulty, pebbles_count, max_pebbles_per_turn, draw);
    if game.first_player == Program then
      match ProgramTurn(game, pick)
      case Err(e) => Err(e)
      case Ok(opening) => Ok(Handled(opening.state, [opening.event]))
    else
      Ok(Handled(game, []))
  }

  /**
   `handle`: fail when no game is stored, otherwise dispatch on the action.
   On `Ok`, the result's state is what the program stores next.
   */
  function Handle(stored: Option<GameState>, action: PebblesAction, draw: u32, pick: u32): (r: Result<Handled>)
    requires PickFitsFor(stored, action, pick)
    ensures stored.None? ==> r == Err(NotInitialized)
    ensures stored.Some? && action.Turn? ==> r == HandleTurn(stored.value, action.pebbles, pick)
    ensures stored.Some? && action.GiveUp? ==> r == Ok(HandleGiveUp(stored.value))
    ensures stored.Some? && action.Restart? ==>
              r == HandleRestart(action.difficulty, action.pebbles_count, action.max_pebbles_per_turn, draw, pick)
  {
    match stored
    case None => Err(NotInitialized)
    case Some(s) =>
      match action
      case Turn(pebbles) => HandleTurn(s, pebbles, pick)
      case GiveUp => Ok(HandleGiveUp(s))
      case Restart(difficulty, pebbles_count, max_pebbles_per_turn) =>
        HandleRestart(difficulty, pebbles_count, max_pebbles_per_turn, draw, pick)
  }

  /** `state`: read the stored game, panicking when there is none. */
  function ReadState(stored: Option<GameState>): (r: Result<GameState>)
    ensures r.Ok? <==> stored.Some?
    ensures r.Ok? ==> r.value == stored.value
    ensures r.Err? ==> r.panic == NotInitialized
  {
    match stored
    case None => Err(NotInitialized)
    case Some(s) => Ok(s)
  }
}

=== FILE: pebbles_io.dfy ===
/**
 The message and state types exchanged with the pebbles game program.

 The wire types keep the field names of the game's I/O crate
 (`pebbles_count`, `max_pebbles_per_turn`, ...), so that a reader can match
 them with the Rust program field by field. Every count is a `u32`.
 */
module PebblesIo {

  /** The largest value of a Rust `u32`. */
  const U32_MAX: int := 0xFFFF_FFFF

  /** Unsigned 32-bit integers. Arithmetic on them is written out explicitly. */
  type u32 = x: int | 0 <= x <= 0xFFFF_FFFF

  datatype Option<+T> = None | Some(value: T)

  datatype DifficultyLevel = Easy | Hard

  datatype Player = User | Program

  /** The payload of the initialisation message. */
  datatype PebblesInit = PebblesInit(
    difficulty: DifficultyLevel,
    pebbles_count: u32,
    max_pebbles_per_turn: u32)

  /** The requests a running game accepts. */
  datatype PebblesAction =
    | Turn(pebbles: u32)
    | GiveUp
    | Restart(difficulty: DifficultyLevel, pebbles_count: u32, max_pebbles_per_turn: u32)

  /** The replies the game sends. */
  datatype PebblesEvent =
    | CounterTurn(pebbles: u32)
    | Won(player: Player)

  /** The one game the program keeps between messages. */
  datatype GameState = GameState(
    pebbles_count: u32,
    max_pebbles_per_turn: u32,
    pebbles_remaining: u32,
    difficulty: DifficultyLevel,
    first_player: Player,
    winner: Option<Player>)

  /** The reasons for which the program panics. */
  datatype Panic =
    | InvalidConfiguration   // init rejects the pile/limit combination
    | InvalidPebbles         // a Turn outside 1..=max_pebbles_per_turn
    | NotInitialized         // a message before any game state exists
    | AddOverflow            // `max_pebbles_per_turn + 1` does not fit in a u32
    | EmptyRange             // the Easy pick is drawn from the empty range 1..=0

  /** The outcome of one message: a value, or the panic that aborted it. */
  datatype Result<+T> = Ok(value: T) | Err(panic: Panic)
}

=== FILE: scenarios.dfy ===
/**
 Concrete games and the behaviours of the program that a reader might not
 expect: the opening move of `init` is forgotten, a finished game keeps
 accepting turns, `Restart` stores any configuration, and the Hard opponent
 may take no pebbles at all.
 */
module Scenarios {
  import opened PebblesIo
  import opened PebblesGame
  import ModArith

  /**
   When the Hard Program opens `init` on a pile it can take whole, it
   announces its win, yet the stored game still has the full pile and no
   winner, and the User's first turn then takes the pile and wins.
   */
  lemma InitOpeningWinIsForgotten(cfg: PebblesInit, draw: u32, pick: u32)
    requires ValidConfig(cfg.pebbles_count, cfg.max_pebbles_per_turn)
    requires cfg.difficulty == Hard && cfg.max_pebbles_per_turn < U32_MAX
    requires cfg.pebbles_count == cfg.max_pebbles_per_turn
    requires draw % 2 == 1
    ensures Init(cfg, draw, pick).Ok?
    ensures Init(cfg, draw, pick).value.replies == [Won(Program)]
    ensures Init(cfg, draw, pick).value.state.winner == None
    ensures var stored := Init(cfg, draw, pick).value.state;
            HandleTurn(stored, cfg.pebbles_count, pick) == Ok(Handled(stored, [Won(User)]))
  {
    var stored := Init(cfg, draw, pick).value.state;
    ModArith.DivModUnique(cfg.pebbles_count, cfg.max_pebbles_per_turn + 1, 0, cfg.pebbles_count);
    assert ProgramMove(stored, pick) == Ok(cfg.pebbles_count);
  }

  /**
   Nothing checks `winner`: after the Program has emptied the pile, any
   valid turn is answered with `Won(User)`.
   */
  lemma TurnAfterProgramWinIsAccepted(s: GameState, pebbles: u32, pick: u32)
    requires PickFitsGame(s, pick)
    requires s.winner == Some(Program) && s.pebbles_remaining == 0
    requires 1 <= pebbles <= s.max_pebbles_per_turn
    ensures HandleTurn(s, pebbles, pick) == Ok(Handled(s, [Won(User)]))
  {
  }

  /**
   `Restart` stores a configuration `init` would reject, after which every
   turn is rejected.
   */
  lemma RestartStoresRejectedConfig(draw: u32, pick: u32, pebbles: u32)
    requires draw % 2 == 0
    ensures HandleRestart(Easy, 0, 0, draw, pick) == Ok(Handled(GameState(0, 0, 0, Easy, User, None), []))
    ensures !ValidConfig(0, 0)
    ensures HandleTurn(GameState(0, 0, 0, Easy, User, None), pebbles, pick) == Err(InvalidPebbles)
  {
  }

  /**
   Restarting into a Hard game of 20 pebbles, at most 3 per turn, keeps all
   20: the User is not asked to move first, or the Program opens with a move
   of `20 % 4 == 0` pebbles and reports `CounterTurn(0)`.
   */
  lemma HardRestartTwentyByThree(draw: u32, pick: u32)
    ensures HandleRestart(Hard, 20, 3, draw, pick).Ok?
    ensures HandleRestart(Hard, 20, 3, draw, pick).value.state.pebbles_remaining == 20
    ensures draw % 2 == 1 ==> HandleRestart(Hard, 20, 3, draw, pick).value.replies == [CounterTurn(0)]
  {
  }

  /** A Hard game of 15 pebbles, at most 2 per turn, with 14 left: the Program takes 2 and leaves 12. */
  lemma HardMoveFromFourteen(first: Player, pick: u32)
    ensures var s := GameState(15, 2, 14, Hard, first, None);
            ProgramTurn(s, pick) == Ok(Moved(s.(pebbles_remaining := 12), CounterTurn(2)))
  {
  }

  /** In an Easy game of 15 pebbles, at most 2 per turn, `Turn(3)` is rejected and `GiveUp` hands the Program the win. */
  lemma EasyFifteenByTwo(first: Player, pick: u32)
    requires 1 <= pick <= 2
    ensures var s := GameState(15, 2, 15, Easy, first, None);
            && Handle(Some(s), Turn(3), 0, pick) == Err(InvalidPebbles)
            && Handle(Some(s), GiveUp, 0, pick) == Ok(Handled(s.(winner := Some(Program)), [Won(Program)]))
  {
  }
}
